=== FILE: README.md ===
# surreal_import: the loading and tally logic of `load_and_insert_data`

This project is a Dafny model of the decisions `load_and_insert_data` makes
around its I/O. The function reads a JSON file and makes the result a list of
records. It then connects to SurrealDB and calls `create` once for every
record that is a dict, counting each record as inserted or failed.

The JSON decoder (`json.loads`) and the database's `create` call are
modelled as oracles. Both are parameters of the model:

- `Loader.Decoder` maps a text to `Some(value)`, or to `None` when decoding
  raises `JSONDecodeError`.
- `Importer.Sink` maps (the records already passed to `create` in this run,
  the record being created) to `Returned(value)` or `Raised`. Because the
  sink sees that history, it can be stateful, for example a sink that
  rejects repeated records.

Modules, one per concern:

- `Json`: the decoded values (`None`, bools, ints, floats, strings, lists,
  dicts), Python truthiness, and `isinstance(v, dict)`.
- `TextFile`: the file as text. This covers universal-newline translation,
  `for line in f` (which cuts the text into lines, each keeping its `\n`),
  and `str.strip` with Python's whitespace set.
- `Loader`: shape normalisation of the whole-document result, the JSON Lines
  comprehension, and the combination of the two.
- `Importer`: the per-record verdicts, the insertion loop with its two
  counters, and the whole run with the empty-data guard and the trace of
  calls made on the database client.
- `Seqs`, `Wrappers`: order-preserving filter and count, and `Option`.

What the code does, and so what the model does:

- A document that is not an array is accepted. A dict is wrapped, a truthy
  scalar is wrapped, and a falsy one is dropped. When whole-document
  decoding fails, the code falls back to JSON Lines.
- A record has one of two outcomes. A falsy `create` result, an exception
  and a non-dict record all count as failed.
- Records are handled one at a time, in list order, with two counters.

## Model

| member | source | states |
|---|---|---|
| Loader.Normalize | src/surreal_import/main.py:23-30 | A list passes through unchanged, in order. Any other value gives at most one record, and that record is the value itself. The result is empty exactly when the value is falsy and not a dict, so `{}` still gives one record. |
| TextFile.TranslateNewlines | src/surreal_import/main.py:19-22 | Text-mode reading leaves no `\r` in the content. Text with no `\r` is read back unchanged. The first character read is `\n` when the text starts with `\r`, and is otherwise the text's own first character. |
| TextFile.TranslateNewlinesAppend | src/surreal_import/main.py:19-22 | Translation works piece by piece. Text cut anywhere except right after a `\r` translates to the two translated pieces joined. |
| TextFile.TranslateNewlinesCons | src/surreal_import/main.py:19-22 | For every text: a leading character other than `\r` is kept, a leading `\r\n` becomes one `\n`, and a leading lone `\r` becomes one `\n`. In each case the rest of the text is read on as it would be by itself, so nothing after an old-Mac line break is lost. |
| TextFile.LineBreaksTranslate | src/surreal_import/main.py:19-22 | On concrete texts: `"\r\n"` and `"\r"` each read as `"\n"`, and `"a\r\nb\rc"` reads as `"a\nb\nc"`. |
| TextFile.Strip | src/surreal_import/main.py:37 | `line.strip()` is the slice of the line between a whitespace prefix and a whitespace suffix. It is empty exactly when the line is all whitespace. Otherwise it starts and ends with a non-whitespace character. |
| TextFile.LineLength | src/surreal_import/main.py:37 | The first line of a non-empty text runs up to and including its first newline, or to the end when there is none. |
| TextFile.Lines | src/surreal_import/main.py:35-37 | Iterating the file gives lines that put the text back together exactly. No line is empty. A newline only ends a line, and every line but the last ends with one. |
| TextFile.LinesUnique | src/surreal_import/main.py:35-37 | Any split of the text with those properties is the one file iteration produces. |
| Loader.NonBlankLineIsStripTruthy | src/surreal_import/main.py:37 | The comprehension's filter keeps a line exactly when `line.strip()` is truthy. |
| Loader.DecodeLines | src/surreal_import/main.py:36-41 | The JSON Lines result exists exactly when every non-blank line decodes. It then holds the decoded non-blank lines, one for one and in file order. A single failing line yields no data. |
| Loader.DecodeLinesIgnoresBlank | src/surreal_import/main.py:37 | Blank lines never reach the decoder. Two decoders that agree on the non-blank lines give the same result. |
| Loader.LoadRecords | src/surreal_import/main.py:17-41 | A successful whole-document decode yields the normalised value as data: a list in order, or the value wrapped or dropped. That data is empty exactly when the value is falsy and not a dict. The load fails only when the whole document and some non-blank line both fail. After a whole-document failure, the data is the decoded non-blank lines. |
| Loader.FallbackOnlyOnFailure | src/surreal_import/main.py:20-37 | The line-by-line fallback is consulted only when the whole document fails to decode. |
| Importer.Verdicts | src/surreal_import/main.py:62-85 | There is one verdict per record, and a non-dict record fails as not a mapping. |
| Importer.MappingVerdict | src/surreal_import/main.py:76-85 | A dict is inserted exactly when `create`, given the dicts sent before it, returns a truthy value. A falsy result or an exception makes it fail. |
| Importer.SentAreExactlyTheMappings | src/surreal_import/main.py:70-76 | A value is passed to `create` exactly when it is one of the records and is a dict. |
| Importer.TallyStep | src/surreal_import/main.py:62-85 | Counting one more record adds exactly one to exactly one of the two counts. The dicts sent grow by that record only when it is a dict. |
| Importer.VerdictsPrefix | src/surreal_import/main.py:62-85 | Records are judged in list order. A record's outcome never depends on records after it. |
| Importer.InsertedOnlyMappings | src/surreal_import/main.py:70-81 | Only dicts can be inserted, so every non-dict record is among the failures. |
| Importer.AcceptingSinkInsertsEveryMapping | src/surreal_import/main.py:70-78 | If every `create` returns something truthy, exactly the dicts are inserted and exactly the non-dicts fail. |
| Importer.RejectingSinkInsertsNothing | src/surreal_import/main.py:76-85 | If `create` never returns anything truthy (falsy results or exceptions), nothing is inserted and every record fails. |
| Importer.MixedRecordsExample | src/surreal_import/main.py:62-85 | For `[{"a": 1}, "not-a-mapping", {"b": 2}]` and an accepting sink, two records are inserted, one fails, and `create` sees only the two dicts. |
| Importer.InsertRecords | src/surreal_import/main.py:60-85 | Every record lands in exactly one counter, so `inserted + failed` is the number of records. `create` is called once for each dict, in order, and never for anything else. `inserted` counts the records whose verdict is inserted, and `failed` counts all the others. |
| Importer.LoadAndInsert | src/surreal_import/main.py:16-89 | The run stops as unparseable when the whole document and some non-blank line both fail to decode, and with no data when the list is empty. In both cases no call reaches the database. The run reaches the database exactly when the whole document is a dict or truthy, or when all non-blank lines decode and there is at least one. The calls are then connect, use, one create per dict, and close, with `inserted + failed` equal to the number of records. |

## Left out

- File opening and reading, and `seek`, are not modelled. The file's raw text is an input. The missing-file path at lines 91-92 is left out, because it is an I/O error. So is a UTF-8 decoding error while reading, which would reach the catch-all at lines 93-94.
- `json.loads` is an oracle, because it is a library parser. The oracle answers a value or a decode error (`JSONDecodeError`). How duplicate keys are resolved is up to the oracle.
- Errors from `json.loads` other than a decode error are not modelled, because the two-outcome oracle cannot express them. An example is `RecursionError` on deeply nested input. Such an error is caught by neither `except json.JSONDecodeError` (lines 32 and 38). It skips the JSON Lines fallback and ends the run at the catch-all at lines 93-94, before any database call. A decoder that answers a decode error instead would wrongly go on to the fallback.
- `Surreal(...)` (line 49) is not modelled, because it is a foreign constructor. `connect`, `use` and `close` (lines 50, 55 and 88) are assumed to succeed. They appear as the `Connect`, `Use` and `Close` events of the call trace. If one of them raised, the catch-all at lines 93-94 would end the run without closing. That path is not modelled, because it is a network failure.
- `create` is modelled only by its outcome: a returned value judged by truthiness, or an exception. Its table argument is always `arxiv_data`, and that constant appears in the trace.
- Every `print` is left out, because it is output only. A `print` that raises (for example a `UnicodeEncodeError` when standard output cannot encode a record) is not modelled either: the one at line 84 runs inside the `except` handler, so its exception would leave the loop and end the run at the catch-all at lines 93-94 without `close`. The print at line 80 formats the same record as the one at line 84, so a raise there is normally followed by a raise at line 84, with the same result.
- `asyncio` and the `main()` configuration at lines 97-114 are left out, because they are runtime plumbing.
- Floats are exact reals, and `NaN`/`Infinity` are a single always-truthy value. Rounding is not modelled.
- A streaming decoder, a worker pool, duplicate classification and concurrent counters are not implemented by this code, so they are not modelled.
- Cancellation (`asyncio.CancelledError`, which the loop does not catch) is not modelled.

=== FILE: importer.dfy ===
/** The import run: the empty-data guard, one `create` per record, and the
    inserted/failed tally. */
module Importer {
  import opened Wrappers
  import opened Seqs
  import opened Json
  import opened TextFile
  import opened Loader

  /** Every record is written to this one table. */
  const Table: string := "arxiv_data"

  /** What one awaited `db.create(table, record)` did: returned a value, or raised. */
  datatype CreateResult = Returned(value: JsonValue) | Raised

  /** The sink's answer to `create` for a record, given the records this run
      already passed to `create` (so a sink that rejects repeats is expressible). */
  type Sink = (seq<JsonValue>, JsonValue) -> CreateResult

  /** The calls the run makes on the database client, in order. */
  datatype SinkCall =
    | Connect
    | Use(namespace: string, database: string)
    | Create(table: string, record: JsonValue)
    | Close

  /** How one record ended: written, or one of the three ways of failing. */
  datatype Verdict = Inserted | NotAMapping | FalsyResult | CreateRaised

  predicate IsInserted(v: Verdict)
  {
    v.Inserted?
  }

  predicate IsFailed(v: Verdict)
  {
    !v.Inserted?
  }

  /** The outcome of record `i` given everything before it: a non-mapping
      fails without reaching the sink; a mapping is inserted exactly when
      `create` returns a truthy value. */
  function VerdictAt(sink: Sink, records: seq<JsonValue>, i: nat): Verdict
    requires i < |records|
  {
    if !IsObject(records[i]) then NotAMapping
    else match sink(Filter(IsObject, records[..i]), records[i])
      case Raised => CreateRaised
      case Returned(v) => if Truthy(v) then Inserted else FalsyResult
  }

  /** The outcome of every record, position by position. */
  function Verdicts(sink: Sink, records: seq<JsonValue>): (vs: seq<Verdict>)
    ensures |vs| == |records|
    ensures forall i :: 0 <= i < |records| && !IsObject(records[i]) ==> vs[i] == NotAMapping
  {
    seq(|records|, i requires 0 <= i < |records| => VerdictAt(sink, records, i))
  }

  /** A mapping is inserted exactly when `create`, called with the mappings
      sent before it, returns a truthy value; otherwise it fails. */
  lemma MappingVerdict(sink: Sink, records: seq<JsonValue>, i: nat)
    requires i < |records| && IsObject(records[i])
    ensures var result := sink(Filter(IsObject, records[..i]), records[i]);
      IsInserted(Verdicts(sink, records)[i]) <==> result.Returned? && Truthy(result.value)
  {
  }

  /** `create` is given every dict of the records and nothing else: a value
      is sent exactly when it is one of the records and is a dict. */
  lemma SentAreExactlyTheMappings(records: seq<JsonValue>, x: JsonValue)
    ensures x in Filter(IsObject, records) <==> x in records && IsObject(x)
  {
    FilterMembers(IsObject, records, x);
  }

  /** The `Create` calls for the records handed to the sink, in order. */
  function CreateCalls(sent: seq<JsonValue>): (calls: seq<SinkCall>)
    ensures |calls| == |sent|
  {
    seq(|sent|, k requires 0 <= k < |sent| => Create(Table, sent[k]))
  }

  /** Records are judged in list order: the outcomes of a prefix of the
      records do not depend on the records that follow it. */
  lemma VerdictsPrefix(sink: Sink, records: seq<JsonValue>, n: nat)
    requires n <= |records|
    ensures Verdicts(sink, records[..n]) == Verdicts(sink, records)[..n]
  {
    forall i | 0 <= i < n
      ensures VerdictAt(sink, records[..n], i) == VerdictAt(sink, records, i)
    {
      assert records[..n][..i] == records[..i];
    }
  }

  /** Only mappings can be inserted, so every non-mapping is among the failures. */
  lemma InsertedOnlyMappings(sink: Sink, records: seq<JsonValue>)
    ensures Count(IsInserted, Verdicts(sink, records)) <= Count(IsObject, records)
    ensures Count(IsFailed, Verdicts(sink, records)) >= |records| - Count(IsObject, records)
  {
    var vs := Verdicts(sink, records);
    CountMonotone(IsInserted, IsObject, vs, records);
    CountPartition(IsInserted, IsFailed, vs);
  }

  /** Against a sink whose every `create` returns a truthy value, exactly the
      mappings are inserted and exactly the non-mappings fail. */
  lemma AcceptingSinkInsertsEveryMapping(sink: Sink, records: seq<JsonValue>)
    requires forall history, record :: sink(history, record).Returned? && Truthy(sink(history, record).value)
    ensures Count(IsInserted, Verdicts(sink, records)) == Count(IsObject, records)
    ensures Count(IsFailed, Verdicts(sink, records)) == |records| - Count(IsObject, records)
  {
    var vs := Verdicts(sink, records);
    CountMonotone(IsInserted, IsObject, vs, records);
    CountMonotone(IsObject, IsInserted, records, vs);
    CountPartition(IsInserted, IsFailed, vs);
  }

  /** Against a sink whose `create` never returns a truthy value, nothing is
      inserted and every record fails. */
  lemma RejectingSinkInsertsNothing(sink: Sink, records: seq<JsonValue>)
    requires forall history, record :: !(sink(history, record).Returned? && Truthy(sink(history, record).value))
    ensures Count(IsInserted, Verdicts(sink, records)) == 0
    ensures Count(IsFailed, Verdicts(sink, records)) == |records|
  {
    var vs := Verdicts(sink, records);
    CountNone(IsInserted, vs);
    CountPartition(IsInserted, IsFailed, vs);
  }

  /** `[{"a": 1}, "not-a-mapping", {"b": 2}]` against a sink that accepts
      everything: two inserted, one failed, and `create` sees only the two mappings. */
  lemma MixedRecordsExample(sink: Sink)
    requires forall history, record :: sink(history, record).Returned? && Truthy(sink(history, record).value)
    ensures var records := [JObject([("a", JInt(1))]), JString("not-a-mapping"), JObject([("b", JInt(2))])];
      && Count(IsInserted, Verdicts(sink, records)) == 2
      && Count(IsFailed, Verdicts(sink, records)) == 1
      && Filter(IsObject, records) == [records[0], records[2]]
  {
    var records := [JObject([("a", JInt(1))]), JString("not-a-mapping"), JObject([("b", JInt(2))])];
    assert Filter(IsObject, records) == [records[0], records[2]] by {
      assert records[1..][1..] == [records[2]];
    }
    AcceptingSinkInsertsEveryMapping(sink, records);
  }

  /** Taking record `i` into account extends the mappings sent by at most
      that record and adds its verdict to exactly one of the two counts. */
  lemma TallyStep(sink: Sink, records: seq<JsonValue>, i: nat)
    requires i < |records|
    ensures Filter(IsObject, records[..i + 1])
      == Filter(IsObject, records[..i]) + (if IsObject(records[i]) then [records[i]] else [])
    ensures var vs := Verdicts(sink, records);
      Count(IsInserted, vs[..i + 1]) == Count(IsInserted, vs[..i]) + (if IsInserted(vs[i]) then 1 else 0)
    ensures var vs := Verdicts(sink, records);
      Count(IsFailed, vs[..i + 1]) == Count(IsFailed, vs[..i]) + (if IsFailed(vs[i]) then 1 else 0)
  {
    var vs := Verdicts(sink, records);
    assert records[..i + 1] == records[..i] + [records[i]];
    assert vs[..i + 1] == vs[..i] + [vs[i]];
    FilterAppend(IsObject, records[..i], [records[i]]);
    CountSnoc(IsInserted, vs[..i], vs[i]);
    CountSnoc(IsFailed, vs[..i], vs[i]);
  }

  /** The insertion loop: visits the records once each in order, calls
      `create` for the mappings only, and counts every record in exactly one
      of `inserted` and `failed`. */
  method InsertRecords(sink: Sink, records: seq<JsonValue>) returns (inserted: nat, failed: nat, sent: seq<JsonValue>)
    ensures inserted + failed == |records|
    ensures sent == Filter(IsObject, records)
    ensures inserted == Count(IsInserted, Verdicts(sink, records))
    ensures failed == Count(IsFailed, Verdicts(sink, records))
  {
    ghost var verdicts := Verdicts(sink, records);
    inserted, failed, sent := 0, 0, [];
    var i := 0;
    while i < |records|
      invariant 0 <= i <= |records|
      invariant sent == Filter(IsObject, records[..i])
      invariant inserted == Count(IsInserted, verdicts[..i])
      invariant failed == Count(IsFailed, verdicts[..i])
      invariant inserted + failed == i
    {
      var record := records[i];
      if !IsObject(record) {
        failed := failed + 1;
      } else {
        var result := sink(sent, record);
        sent := sent + [record];
        match result
        case Raised =>
          failed := failed + 1;
        case Returned(v) =>
          if Truthy(v) {
            inserted := inserted + 1;
          } else {
            failed := failed + 1;
          }
      }
      TallyStep(sink, records, i);
      i := i + 1;
    }
    assert records[..i] == records;
    assert verdicts[..i] == verdicts;
  }

  /** How a run ends: nothing decoded, nothing to import, or the insertion
      ran with the calls it made and its two counts. Only `Completed` carries
      calls, so a run that ends early has made none on the database client. */
  datatype RunResult =
    | Unparseable
    | NoData
    | Completed(calls: seq<SinkCall>, inserted: nat, failed: nat)

  /** `load_and_insert_data` for a file with raw text `raw`: connect, select
      and insert only when at least one record was loaded. */
  method LoadAndInsert(decode: Decoder, sink: Sink, raw: string, namespace: string, database: string)
    returns (r: RunResult)
    ensures r.Unparseable? <==> LoadRecords(decode, raw).None?
    ensures r.NoData? <==> LoadRecords(decode, raw) == Some([])
    ensures var content := TranslateNewlines(raw);
      r.Completed? <==>
        match decode(content)
        case Some(v) => IsObject(v) || Truthy(v)
        case None => AllDecode(decode, NonBlankLines(Lines(content))) && NonBlankLines(Lines(content)) != []
    ensures r.Completed? ==>
      var records := LoadRecords(decode, raw).value;
      && r.inserted + r.failed == |records|
      && r.inserted == Count(IsInserted, Verdicts(sink, records))
      && r.calls == [Connect, Use(namespace, database)] + CreateCalls(Filter(IsObject, records)) + [Close]
  {
    var loaded := LoadRecords(decode, raw);
    if loaded.None? {
      return Unparseable;
    }
    var records := loaded.value;
    if records == [] {
      return NoData;
    }
    var inserted, failed, sent := InsertRecords(sink, records);
    r := Completed([Connect, Use(namespace, database)] + CreateCalls(sent) + [Close], inserted, failed);
  }
}

=== FILE: json.dfy ===
/** The values a JSON decoder hands back to the importer, and how Python judges them. */
module Json {

  /** One decoded JSON value, as the Python types `json.loads` produces:
      `None`, `bool`, `int`, `float`, `str`, `list` and `dict`.
      Floats are exact reals; `NaN` and `Infinity`, which the decoder accepts,
      are `JNonFinite`. Object members keep their insertion order. */
  datatype JsonValue =
    | JNull
    | JBool(b: bool)
    | JInt(i: int)
    | JFloat(f: real)
    | JNonFinite
    | JString(s: string)
    | JArray(items: seq<JsonValue>)
    | JObject(members: seq<(string, JsonValue)>)

  /** Python truth value: `None`, `False`, zero, and empty strings, lists and
      dicts are false; everything else is true. */
  predicate Truthy(v: JsonValue)
  {
    match v
    case JNull => false
    case JBool(b) => b
    case JInt(i) => i != 0
    case JFloat(f) => f != 0.0
    case JNonFinite => true
    case JString(s) => s != []
    case JArray(items) => items != []
    case JObject(members) => members != []
  }

  /** `isinstance(v, dict)`: the only shape the importer will write. */
  predicate IsObject(v: JsonValue)
  {
    v.JObject?
  }
}

=== FILE: loader.dfy ===
/** Turning the file's text into the list of records to import: whole-document
    decoding with shape normalisation, and the JSON Lines fallback. */
module Loader {
  import opened Wrappers
  import opened Seqs
  import opened Json
  import opened TextFile

  /** `json.loads`: the decoded value, or `None` when it raises a decode error. */
  type Decoder = string -> Option<JsonValue>

  /** Ensure the decoded document is a list: a dict is wrapped, a list is kept,
      and any other value is wrapped when truthy and dropped when falsy. */
  function Normalize(v: JsonValue): (records: seq<JsonValue>)
    ensures v.JArray? ==> records == v.items
    ensures !v.JArray? ==> |records| <= 1 && forall k :: 0 <= k < |records| ==> records[k] == v
    ensures records == [] <==> !IsObject(v) && !Truthy(v)
  {
    if v.JObject? then [v]
    else if v.JArray? then v.items
    else if Truthy(v) then [v]
    else []
  }

  /** The filter of the JSON Lines comprehension: the line has a
      non-whitespace character (see `NonBlankLineIsStripTruthy`). */
  predicate NonBlankLine(line: string)
  {
    !Blank(line)
  }

  /** The filter is exactly the truthiness of `line.strip()`. */
  lemma NonBlankLineIsStripTruthy(line: string)
    ensures NonBlankLine(line) <==> Strip(line) != []
  {
  }

  /** The lines the comprehension decodes, in file order. */
  function NonBlankLines(lines: seq<string>): seq<string>
  {
    Filter(NonBlankLine, lines)
  }

  /** Every one of `lines` decodes. */
  predicate AllDecode(decode: Decoder, lines: seq<string>)
  {
    forall k :: 0 <= k < |lines| ==> decode(lines[k]).Some?
  }

  /** `values` are the decoded `lines`, one for one and in order. */
  predicate DecodesTo(decode: Decoder, lines: seq<string>, values: seq<JsonValue>)
  {
    && |values| == |lines|
    && forall k :: 0 <= k < |lines| ==> decode(lines[k]) == Some(values[k])
  }

  /** `[json.loads(line) for line in lines if line.strip()]`: the first line
      that fails to decode abandons the whole list. */
  function DecodeLines(decode: Decoder, lines: seq<string>): (r: Option<seq<JsonValue>>)
    ensures r.Some? <==> AllDecode(decode, NonBlankLines(lines))
    ensures r.Some? ==> DecodesTo(decode, NonBlankLines(lines), r.value)
    decreases |lines|
  {
    if lines == [] then Some([])
    else
      var line := lines[0];
      var tail := NonBlankLines(lines[1..]);
      NonBlankLinesCons(lines);
      if !NonBlankLine(line) then
        assert [] + tail == tail;
        DecodeLines(decode, lines[1..])
      else match decode(line)
        case None =>
          DecodeCons(decode, line, tail);
          None
        case Some(v) =>
          match DecodeLines(decode, lines[1..])
          case None =>
            DecodeCons(decode, line, tail);
            None
          case Some(vs) =>
            DecodesToCons(decode, line, tail, v, vs);
            Some([v] + vs)
  }

  /** One unfolding of the line filter. */
  lemma NonBlankLinesCons(lines: seq<string>)
    requires lines != []
    ensures NonBlankLines(lines) == (if NonBlankLine(lines[0]) then [lines[0]] else []) + NonBlankLines(lines[1..])
  {
  }

  /** A list of lines all decodes exactly when its head and its tail do. */
  lemma DecodeCons(decode: Decoder, line: string, tail: seq<string>)
    ensures AllDecode(decode, [line] + tail) <==> decode(line).Some? && AllDecode(decode, tail)
  {
    if AllDecode(decode, [line] + tail) {
      assert ([line] + tail)[0] == line;
      forall k | 0 <= k < |tail|
        ensures decode(tail[k]).Some?
      {
        assert ([line] + tail)[k + 1] == tail[k];
      }
    }
    if decode(line).Some? && AllDecode(decode, tail) {
      forall k | 0 <= k < |tail| + 1
        ensures decode(([line] + tail)[k]).Some?
      {
        if k > 0 {
          assert ([line] + tail)[k] == tail[k - 1];
        }
      }
    }
  }

  /** Decoding a head line and decoding the tail give the decoded list. */
  lemma DecodesToCons(decode: Decoder, line: string, tail: seq<string>, v: JsonValue, vs: seq<JsonValue>)
    requires decode(line) == Some(v) && DecodesTo(decode, tail, vs)
    ensures DecodesTo(decode, [line] + tail, [v] + vs)
  {
  }

  /** Blank lines never reach the decoder: two decoders that agree on the
      non-blank lines give the same JSON Lines result. */
  lemma {:induction false} DecodeLinesIgnoresBlank(decode1: Decoder, decode2: Decoder, lines: seq<string>)
    requires forall k :: 0 <= k < |lines| && NonBlankLine(lines[k]) ==> decode1(lines[k]) == decode2(lines[k])
    ensures DecodeLines(decode1, lines) == DecodeLines(decode2, lines)
  {
    if lines != [] {
      forall k | 0 <= k < |lines[1..]| && NonBlankLine(lines[1..][k])
        ensures decode1(lines[1..][k]) == decode2(lines[1..][k])
      {
        assert lines[1..][k] == lines[k + 1];
      }
      DecodeLinesIgnoresBlank(decode1, decode2, lines[1..]);
    }
  }

  /** The records read from a file whose raw text is `raw`, or `None` when
      neither the whole document nor its lines decode. */
  function LoadRecords(decode: Decoder, raw: string): (r: Option<seq<JsonValue>>)
    ensures var content := TranslateNewlines(raw);
      decode(content).Some? ==> r == Some(Normalize(decode(content).value))
    ensures var content := TranslateNewlines(raw);
      decode(content).Some? ==> r.Some? && (r.value == [] <==> !IsObject(decode(content).value) && !Truthy(decode(content).value))
    ensures var lines := NonBlankLines(Lines(TranslateNewlines(raw)));
      r.None? <==> decode(TranslateNewlines(raw)).None? && !AllDecode(decode, lines)
    ensures var lines := NonBlankLines(Lines(TranslateNewlines(raw)));
      decode(TranslateNewlines(raw)).None? && r.Some? ==> DecodesTo(decode, lines, r.value)
  {
    var content := TranslateNewlines(raw);
    match decode(content)
    case Some(v) => Some(Normalize(v))
    case None => DecodeLines(decode, Lines(content))
  }

  /** The JSON Lines fallback is consulted only when the whole document fails
      to decode: decoders that agree on a successful whole-document decode
      load the same records, whatever they do with single lines. */
  lemma FallbackOnlyOnFailure(decode1: Decoder, decode2: Decoder, raw: string)
    requires decode1(TranslateNewlines(raw)).Some?
    requires decode1(TranslateNewlines(raw)) == decode2(TranslateNewlines(raw))
    ensures LoadRecords(decode1, raw) == LoadRecords(decode2, raw)
  {
  }
}

=== FILE: seqs.dfy ===
/** Order-preserving filtering, counting and flattening of sequences. */
module Seqs {

  /** The elements of `s` that satisfy `p`, in their original order. */
  function Filter<T(==)>(p: T -> bool, s: seq<T>): (r: seq<T>)
    ensures |r| <= |s|
    ensures forall i :: 0 <= i < |r| ==> p(r[i])
  {
    if s == [] then []
    else (if p(s[0]) then [s[0]] else []) + Filter(p, s[1..])
  }

  /** Filtering drops exactly the elements that fail `p`. */
  lemma {:induction false} FilterMembers<T>(p: T -> bool, s: seq<T>, x: T)
    ensures x in Filter(p, s) <==> x in s && p(x)
  {
    if s != [] {
      FilterMembers(p, s[1..], x);
      assert s == [s[0]] + s[1..];
    }
  }

  /** Filtering distributes over concatenation, so it keeps the order of its input. */
  lemma {:induction false} FilterAppend<T>(p: T -> bool, a: seq<T>, b: seq<T>)
    ensures Filter(p, a + b) == Filter(p, a) + Filter(p, b)
  {
    if a == [] {
      assert a + b == b;
    } else {
      assert (a + b)[1..] == a[1..] + b;
      FilterAppend(p, a[1..], b);
    }
  }

  /** The number of elements of `s` that satisfy `p`. */
  function Count<T(==)>(p: T -> bool, s: seq<T>): nat
  {
    |Filter(p, s)|
  }

  /** Appending one element adds one to the count exactly when it satisfies `p`. */
  lemma CountSnoc<T>(p: T -> bool, s: seq<T>, x: T)
    ensures Count(p, s + [x]) == Count(p, s) + (if p(x) then 1 else 0)
  {
    FilterAppend(p, s, [x]);
    assert Filter(p, [x]) == (if p(x) then [x] else []) + Filter(p, []);
  }

  /** Two complementary predicates split a sequence between them. */
  lemma {:induction false} CountPartition<T>(p: T -> bool, q: T -> bool, s: seq<T>)
    requires forall x :: q(x) == !p(x)
    ensures Count(p, s) + Count(q, s) == |s|
  {
    if s != [] {
      CountPartition(p, q, s[1..]);
    }
  }

  /** When `p` holding at a position of `a` forces `q` at the same position of `b`,
      `a` has at most as many `p`-elements as `b` has `q`-elements. */
  lemma {:induction false} CountMonotone<A, B>(p: A -> bool, q: B -> bool, a: seq<A>, b: seq<B>)
    requires |a| == |b|
    requires forall i :: 0 <= i < |a| && p(a[i]) ==> q(b[i])
    ensures Count(p, a) <= Count(q, b)
  {
    if a != [] {
      CountMonotone(p, q, a[1..], b[1..]);
    }
  }

  /** A sequence with no element satisfying `p` has a count of zero. */
  lemma {:induction false} CountNone<T>(p: T -> bool, s: seq<T>)
    requires forall i :: 0 <= i < |s| ==> !p(s[i])
    ensures Count(p, s) == 0
  {
    if s != [] {
      CountNone(p, s[1..]);
    }
  }

  /** Concatenation of a sequence of sequences. */
  function Concat<T>(ss: seq<seq<T>>): seq<T>
  {
    if ss == [] then [] else ss[0] + Concat(ss[1..])
  }
}

=== FILE: text_file.dfy ===
/** How the importer sees the input file as text: universal-newline translation,
    iteration line by line, and `str.strip`. */
module TextFile {
  import opened Seqs

  /** `str.isspace` for one character: ASCII tab to carriage return, the
      information separators 0x1C-0x1F, space, NEL, no-break space and the
      Unicode space separators and line/paragraph separators. */
  predicate IsSpace(c: char)
  {
    var n := c as int;
    || (0x09 <= n <= 0x0D)
    || (0x1C <= n <= 0x20)
    || n == 0x85 || n == 0xA0 || n == 0x1680
    || (0x2000 <= n <= 0x200A)
    || n == 0x2028 || n == 0x2029 || n == 0x202F || n == 0x205F || n == 0x3000
  }

  /** Every character of `s` is whitespace (vacuously so for the empty string). */
  predicate Blank(s: string)
  {
    forall i :: 0 <= i < |s| ==> IsSpace(s[i])
  }

  /** How many raw characters the first character read stands for: two for
      a `"\r\n"` pair, one otherwise. */
  function BreakWidth(raw: string): (w: nat)
    requires raw != []
    ensures 1 <= w <= |raw|
  {
    if |raw| > 1 && raw[0] == '\r' && raw[1] == '\n' then 2 else 1
  }

  /** Reading a file opened in text mode with default newline handling:
      `"\r\n"` and a lone `"\r"` both become `"\n"`. */
  function TranslateNewlines(raw: string): (content: string)
    ensures '\r' !in content
    ensures '\r' !in raw ==> content == raw
    ensures |content| <= |raw|
    ensures raw != [] ==> content != [] && content[0] == (if raw[0] == '\r' then '\n' else raw[0])
    decreases |raw|
  {
    if raw == [] then []
    else
      var w := BreakWidth(raw);
      assert '\r' !in raw ==> w == 1 && raw == [raw[0]] + raw[1..];
      [if raw[0] == '\r' then '\n' else raw[0]] + TranslateNewlines(raw[w..])
  }

  /** Translation works piece by piece: text cut anywhere except right after
      a `"\r"` (which might start a `"\r\n"`) translates to the translated pieces. */
  lemma {:induction false} TranslateNewlinesAppend(a: string, b: string)
    requires a == [] || a[|a| - 1] != '\r'
    ensures TranslateNewlines(a + b) == TranslateNewlines(a) + TranslateNewlines(b)
  {
    if a == [] {
      assert a + b == b;
    } else {
      var w := BreakWidth(a);
      assert BreakWidth(a + b) == w by {
        assert (a + b)[0] == a[0];
        if a[0] == '\r' {
          assert |a| > 1 && (a + b)[1] == a[1];
        }
      }
      assert (a + b)[w..] == a[w..] + b;
      TranslateNewlinesAppend(a[w..], b);
    }
  }

  /** What reading does at the front of any text: a character other than
      `"\r"` is kept, a `"\r\n"` pair becomes one `"\n"`, and so does a lone
      `"\r"`, with the text after it read on unchanged. */
  lemma TranslateNewlinesCons(c: char, rest: string)
    ensures c != '\r' ==> TranslateNewlines([c] + rest) == [c] + TranslateNewlines(rest)
    ensures TranslateNewlines(['\r', '\n'] + rest) == ['\n'] + TranslateNewlines(rest)
    ensures (rest == [] || rest[0] != '\n') ==>
              TranslateNewlines(['\r'] + rest) == ['\n'] + TranslateNewlines(rest)
  {
  }

  /** Both line-break conventions other than `"\n"` become one `"\n"`,
      and the characters around them are kept, on a concrete text. */
  lemma LineBreaksTranslate()
    ensures TranslateNewlines("\r\n") == "\n"
    ensures TranslateNewlines("\r") == "\n"
    ensures TranslateNewlines("a\r\nb\rc") == "a\nb\nc"
  {
    assert "\r\n"[2..] == [];
    assert "\r"[1..] == [];
    var c := "c";
    assert c[1..] == [];
    assert TranslateNewlines(c) == "c";
    var rc := "\rc";
    assert BreakWidth(rc) == 1 && rc[1..] == c;
    assert TranslateNewlines(rc) == "\nc";
    var brc := "b\rc";
    assert BreakWidth(brc) == 1 && brc[1..] == rc;
    assert TranslateNewlines(brc) == "b\nc";
    var crlf := "\r\nb\rc";
    assert BreakWidth(crlf) == 2 && crlf[2..] == brc;
    assert TranslateNewlines(crlf) == "\nb\nc";
    var all := "a\r\nb\rc";
    assert BreakWidth(all) == 1 && all[1..] == crlf;
  }

  /** The number of whitespace characters `s` starts with. */
  function LeadingSpaces(s: string): (n: nat)
    ensures n <= |s|
    ensures forall i :: 0 <= i < n ==> IsSpace(s[i])
    ensures n < |s| ==> !IsSpace(s[n])
    decreases |s|
  {
    if s != [] && IsSpace(s[0]) then 1 + LeadingSpaces(s[1..]) else 0
  }

  /** The number of whitespace characters `s` ends with. */
  function TrailingSpaces(s: string): (n: nat)
    ensures n <= |s|
    ensures forall i :: |s| - n <= i < |s| ==> IsSpace(s[i])
    ensures n < |s| ==> !IsSpace(s[|s| - n - 1])
    decreases |s|
  {
    if s != [] && IsSpace(s[|s| - 1]) then 1 + TrailingSpaces(s[..|s| - 1]) else 0
  }

  /** `s.strip()`: the slice of `s` between its leading and its trailing
      whitespace. It is empty exactly when `s` is all whitespace, and
      otherwise starts and ends with a non-whitespace character. */
  function Strip(s: string): (r: string)
    ensures var lead := LeadingSpaces(s);
      && lead + |r| <= |s|
      && r == s[lead..lead + |r|]
      && Blank(s[..lead])
      && Blank(s[lead + |r|..])
    ensures r == [] <==> Blank(s)
    ensures r != [] ==> !IsSpace(r[0]) && !IsSpace(r[|r| - 1])
  {
    var lead := LeadingSpaces(s);
    var tail := |s| - TrailingSpaces(s);
    StripBounds(s, lead, tail);
    if lead < tail then s[lead..tail] else []
  }

  /** Where the two whitespace margins meet: they overlap only when `s` is
      all whitespace. */
  lemma StripBounds(s: string, lead: nat, tail: nat)
    requires lead <= |s| && tail <= |s|
    requires forall i :: 0 <= i < lead ==> IsSpace(s[i])
    requires lead < |s| ==> !IsSpace(s[lead])
    requires forall i :: tail <= i < |s| ==> IsSpace(s[i])
    requires tail > 0 ==> !IsSpace(s[tail - 1])
    ensures lead < tail ==> !Blank(s) && !IsSpace(s[lead]) && !IsSpace(s[tail - 1])
    ensures lead >= tail ==> lead == |s| && Blank(s)
    ensures Blank(s[..lead])
    ensures lead < tail ==> Blank(s[tail..])
    ensures lead >= tail ==> Blank(s[lead..])
  {
    var prefix := s[..lead];
    forall i | 0 <= i < |prefix|
      ensures IsSpace(prefix[i])
    {
    }
    if lead < tail {
      var suffix := s[tail..];
      forall i | 0 <= i < |suffix|
        ensures IsSpace(suffix[i])
      {
        assert suffix[i] == s[tail + i];
      }
    }
  }

  /** The length of the first line of `s`: up to and including the first
      newline, or all of `s` when it has none. */
  function LineLength(s: string): (n: nat)
    requires s != []
    ensures 1 <= n <= |s|
    ensures forall i :: 0 <= i < n - 1 ==> s[i] != '\n'
    ensures n < |s| ==> s[n - 1] == '\n'
  {
    if s[0] == '\n' || |s| == 1 then 1 else 1 + LineLength(s[1..])
  }

  /** `ls` cuts `s` into lines the way iterating over a text file does:
      the pieces reassemble `s`, none is empty, a newline only ever ends a
      piece, and every piece but the last ends with one. */
  predicate IsLineSplit(s: string, ls: seq<string>)
  {
    && Concat(ls) == s
    && (forall k :: 0 <= k < |ls| ==> ls[k] != [] && '\n' !in ls[k][..|ls[k]| - 1])
    && (forall k :: 0 <= k < |ls| - 1 ==> ls[k][|ls[k]| - 1] == '\n')
  }

  /** `for line in f`: the lines of `s`, each keeping its terminating newline. */
  function Lines(s: string): (ls: seq<string>)
    ensures IsLineSplit(s, ls)
    decreases |s|
  {
    if s == [] then []
    else
      var n := LineLength(s);
      var rest := Lines(s[n..]);
      LineSplitCons(s[..n], s[n..], rest);
      assert s[..n] + s[n..] == s;
      [s[..n]] + rest
  }

  /** A first line in front of a split of the remaining text is a split of
      the whole text. */
  lemma LineSplitCons(first: string, more: string, rest: seq<string>)
    requires first != [] && '\n' !in first[..|first| - 1]
    requires more != [] ==> first[|first| - 1] == '\n'
    requires IsLineSplit(more, rest)
    ensures IsLineSplit(first + more, [first] + rest)
  {
    var ls := [first] + rest;
    assert ls[1..] == rest;
    assert rest == [] ==> more == [];
    forall k | 0 <= k < |ls|
      ensures ls[k] != [] && '\n' !in ls[k][..|ls[k]| - 1]
    {
      if k > 0 {
        assert ls[k] == rest[k - 1];
      }
    }
    forall k | 0 <= k < |ls| - 1
      ensures ls[k][|ls[k]| - 1] == '\n'
    {
      if k > 0 {
        assert ls[k] == rest[k - 1];
      }
    }
  }

  /** The cut of `s` into lines is unique: any split with the line-split
      properties is the one file iteration produces. */
  lemma {:induction false} LinesUnique(s: string, ls: seq<string>)
    requires IsLineSplit(s, ls)
    ensures ls == Lines(s)
  {
    if ls == [] {
      assert s == [];
    } else {
      var first := ls[0];
      var m := |first|;
      assert s == first + Concat(ls[1..]);
      assert m <= |s|;
      assert s[..m] == first;
      var n := LineLength(s);
      assert n == m;
      assert s[n..] == Concat(ls[1..]);
      assert IsLineSplit(s[n..], ls[1..]) by {
        forall k | 0 <= k < |ls[1..]|
          ensures ls[1..][k] != [] && '\n' !in ls[1..][k][..|ls[1..][k]| - 1]
        {
          assert ls[1..][k] == ls[k + 1];
        }
        forall k | 0 <= k < |ls[1..]| - 1
          ensures ls[1..][k][|ls[1..][k]| - 1] == '\n'
        {
          assert ls[1..][k] == ls[k + 1];
        }
      }
      LinesUnique(s[n..], ls[1..]);
      assert ls == [first] + ls[1..];
    }
  }
}

=== FILE: wrappers.dfy ===
/** The failure-compatible optional value used for the oracles' answers. */
module Wrappers {

  /** `None` stands for a raised exception or a failed decode; `Some` carries the value. */
  datatype Option<+T> = None | Some(value: T)
}
